=== FILE: README.md ===
# jest-mock-fetch request-queue engine, in Dafny

A model of the request-queue engine of `jest-mock-fetch` (`lib/mock-fetch.ts`),
a test double for `fetch`. Each call of the mocked `fetch` pushes a pending
request record `{config, data, promise, url}` onto one FIFO queue. Test code then
removes records with `popQueueItem` (the oldest one, or one named by the record
itself or by its promise). It settles them with `mockResponse`, which resolves
with the default response overridden field by field, or with `mockError`, which
rejects with the payload as given. It can inspect the queue (`lastReqGet`,
`lastPromiseGet`, `getReqByUrl`) and clear it (`reset`).

The engine is a pure state machine. `MockFetch.State` holds the queue (a
`seq<Queue.Item>`) and the settlement state of every promise handed out
(`map<PromiseId, Status>`, where a status is `Pending`, `Resolved(response)` or
`Rejected(reason)`). It also holds counters that supply fresh identities. Each API
call is a function of the state. The two calls that can throw, `mockResponse`
and `mockError`, give a `Reply`: either a returned value or a thrown message,
and in both cases the state the mock is left in. `fetch` and the three removal
calls give a pair of the next state and the returned value. The three lookups
give only a value, and `reset` gives only the next state.

Modules:

- `Wrappers` (wrappers.dfy): `Option`, standing for `undefined` or a value.
- `Values` (values.dfy): the JavaScript values the mock stores or builds, the
  default response, and `Merge`, which models the object spread `{...defaults, ...overrides}`.
- `Queue` (queue.dfy): records, selectors, `findIndex`, `splice`, the removal
  primitive `Pop` and the newest-first url lookup.
- `MockFetch` (mock_fetch.dfy): the engine state and one function per API call.
- `Properties` (properties.dfy): the reachable-state invariant, settlement at
  most once, FIFO order, override merging and url recency.

Modelling choices:

- JavaScript object identity is a number. A record's identity is `Item.id` and
  its promise's identity is `Item.promise`. Both come from counters in the state
  and are never reused.
- The selector argument of `popQueueItem`, `mockResponse` and `mockError` is an
  `Option<Ref>`. `None` is the absent (`undefined`) selector. `Ref` is either a
  reference to a record (`ItemRef`) or to a promise (`PromiseRef`). The removal
  primitive compares the selector first with each record (the `indexOf` at
  lib/mock-fetch.ts:65). Only when no record matches does it compare the
  selector with each record's promise (the `findIndex` at lib/mock-fetch.ts:70).
  The declarative reading of that choice is `Queue.Selected`.
- A response is a `map<string, Value>` of its own properties. JavaScript's object
  spread is then map union in which the right side wins. This keeps overriding
  keys whose value is `undefined` and keys that are not among the defaults, as
  the spread does.
- A promise's continuations are not modelled; only its final state is. The map
  update the engine performs would overwrite an earlier state. In the model,
  for runs of the ten API calls, this never happens: in every reachable state,
  every queued promise is still `Pending` and belongs to one record only.

Where the code and its documentation disagree, the model follows the code:

- Comments and test names say "last", but the code removes the oldest record
  (`shift`, lib/mock-fetch.ts:82). `Queue.Pop` takes the head.
- The record fields are `url`, `data` and `config` (lib/mock-fetch.ts:25-30).
  The test at test/mock-fetch.spec.ts:253-263 expects `{init, promise, resource}`
  instead.

## Model

| member | source | states |
|---|---|---|
| Queue.FindIndex | lib/mock-fetch.ts:69-71 | `findIndex` returns the first position whose record meets the test; when it finds nothing, no record meets the test |
| Queue.RemoveAt | lib/mock-fetch.ts:77 | `splice(ix, 1)` shortens the queue by one; records before `ix` stay in place and records after it move down one place, in order |
| Queue.RemoveAtMultiset | lib/mock-fetch.ts:77 | removing position `ix` loses exactly the record at `ix` and nothing else |
| Queue.Pop | lib/mock-fetch.ts:62-84 | removal returns a record exactly when one is selected: with no selector the head, otherwise the first record that is the selector, or failing that the first whose promise is the selector. The selected record is spliced out with the others kept in order. When none is selected, the result is `undefined` and the queue is unchanged |
| Queue.Reverse | lib/mock-fetch.ts:167-169 | `slice().reverse()` holds the same records in the opposite order |
| Queue.ReqByUrl | lib/mock-fetch.ts:166-171 | the lookup gives `undefined` exactly when no record has that exact url; otherwise it gives a record with that url that no later record shares (the newest one) |
| Values.Merge | lib/mock-fetch.ts:126-130 | the merged response has the union of the fields; every override field wins and every other default field is kept |
| Values.MergeNothing | lib/mock-fetch.ts:126-130 | merging no overrides gives exactly the defaults |
| Values.MergeOneField | lib/mock-fetch.ts:126-130 | overriding one existing field changes that field only |
| Values.DefaultFields | lib/mock-fetch.ts:109-124 | the defaults hold status 200, status text "OK", `ok` true and the request's url |
| MockFetch.Fetch | lib/mock-fetch.ts:21-33 | `fetch` appends one record with the given url, data and config and a new pending promise. Earlier records are unchanged, and other promises keep their state. The new record's identity and promise are at least the counters, so they differ from every identity handed out before, and the counters move past them. In a reachable state neither is queued or known already |
| MockFetch.PopQueueItem | lib/mock-fetch.ts:62-84 | `popQueueItem` changes only the queue, removing the selected record and returning it. When nothing is selected it returns `undefined` and changes nothing |
| MockFetch.PopPromise | lib/mock-fetch.ts:42-46 | legacy `popPromise` has the same effect on the queue as `popQueueItem` with the same argument. It returns the selected record's promise, or `undefined` exactly when no record is selected |
| MockFetch.PopRequest | lib/mock-fetch.ts:52-56 | legacy `popRequest` has the same effect on the queue as `popQueueItem` with the same argument. It returns the selected record, or `undefined` exactly when no record is selected |
| MockFetch.MockResponse | lib/mock-fetch.ts:93-135 | with nothing selected it throws "No request to respond to!", or when silent returns `undefined`; either way the state is unchanged. Otherwise it removes exactly the selected record, resolves that record's promise with the defaults for its url overridden by the caller's fields, returns that same response, and leaves every other promise as it was |
| MockFetch.MockError | lib/mock-fetch.ts:137-155 | with nothing selected it throws "No request to respond to!", or when silent returns with no effect. Otherwise it removes exactly the selected record and rejects its promise with the error unchanged (`{}` when the error is `undefined`); every other promise is left as it was |
| MockFetch.Reset | lib/mock-fetch.ts:173-176 | `reset` empties the queue and leaves every promise's state alone |
| MockFetch.Init | lib/mock-fetch.ts:19 | a fresh mock has no queued request and has handed out no promise, and it satisfies the invariant |
| MockFetch.LastReqGet | lib/mock-fetch.ts:157-159 | `lastReqGet` gives `undefined` exactly on an empty queue; otherwise it gives the newest (tail) record |
| MockFetch.LastPromiseGet | lib/mock-fetch.ts:161-164 | `lastPromiseGet` gives `undefined` exactly on an empty queue; otherwise it gives the newest record's promise |
| MockFetch.GetReqByUrl | lib/mock-fetch.ts:166-171 | `getReqByUrl` gives `undefined` exactly when no queued record has that exact url; otherwise a queued record with that url that no later record shares |
| Properties.FetchThenLast | lib/mock-fetch.ts:157-164 | right after `fetch`, `lastReqGet` returns the new record (url, data, config, promise) and `lastPromiseGet` returns the promise `fetch` returned, which is pending |
| Properties.FetchKeepsInv | lib/mock-fetch.ts:21-33 | `fetch` keeps the invariant |
| Properties.PopKeepsInv | lib/mock-fetch.ts:62-84 | `popQueueItem` keeps the invariant |
| Properties.MockResponseKeepsInv | lib/mock-fetch.ts:99-134 | `mockResponse` keeps the invariant |
| Properties.MockErrorKeepsInv | lib/mock-fetch.ts:143-154 | `mockError` keeps the invariant |
| Properties.ResetKeepsInv | lib/mock-fetch.ts:173-176 | `reset` keeps the invariant |
| Properties.AfterPopKeepsInv | lib/mock-fetch.ts:42-84 | `popQueueItem`, `popPromise` and `popRequest` keep the invariant |
| Properties.AfterCompletionKeepsInv | lib/mock-fetch.ts:93-155 | `mockResponse` and `mockError` keep the invariant |
| Properties.AfterKeepsInv | lib/mock-fetch.ts:21-176 | every single API call keeps the invariant, whether it returns or throws |
| Properties.RunKeepsInv | lib/mock-fetch.ts:21-176 | any sequence of API calls keeps the invariant |
| Properties.ReachableInv | lib/mock-fetch.ts:19 | every state reachable from a fresh mock has distinct queued records and promises, and every queued promise is pending |
| Properties.MockResponseSettlesPendingOnly | lib/mock-fetch.ts:99-134 | in a reachable state, `mockResponse` resolves a promise that was still pending, and only that promise changes |
| Properties.MockErrorSettlesPendingOnly | lib/mock-fetch.ts:143-154 | in a reachable state, `mockError` rejects a promise that was still pending, and only that promise changes |
| Properties.RemoveAtDropsRef | lib/mock-fetch.ts:62-77 | among distinct records with distinct promises, neither a reference to the removed record nor its promise matches anything left |
| Properties.SelectorMatchesOnce | lib/mock-fetch.ts:62-77 | once a selector has removed its record, it selects nothing in the remaining queue |
| Properties.MockResponseAtMostOnce | lib/mock-fetch.ts:99-105 | a second `mockResponse` with the same selector throws "No request to respond to!", or when silent returns `undefined` with no change |
| Properties.MockErrorAtMostOnce | lib/mock-fetch.ts:143-149 | a second `mockError` with the same selector throws "No request to respond to!", or when silent has no effect |
| Properties.RemovedSelectsNothing | lib/mock-fetch.ts:62-77 | a record that was handed out and is no longer queued, with its promise, is selected neither by a reference to it nor by its promise |
| Properties.RemoveAtKeepsRemoved | lib/mock-fetch.ts:77 | `splice(ix, 1)` brings in no record: an identity and a promise held by no record other than the removed one are held by none afterwards |
| Properties.OthersDiffer | lib/mock-fetch.ts:19-30 | in a reachable state every other queued record differs from a given one both in identity and in promise |
| Properties.AfterPopKeepsRemoved | lib/mock-fetch.ts:42-84 | none of the three removal calls puts a removed record or its promise back in the queue |
| Properties.AfterCompletionKeepsRemoved | lib/mock-fetch.ts:93-155 | neither completion call puts a removed record or its promise back in the queue, whether it returns or throws |
| Properties.AfterKeepsRemoved | lib/mock-fetch.ts:21-176 | no API call puts a removed record or its promise back: `fetch` (line 25) queues a record with fresh identities, and `reset` (line 175) only clears |
| Properties.RunKeepsRemoved | lib/mock-fetch.ts:21-176 | after any sequence of API calls a removed record and its promise are still not queued |
| Properties.RemovedMockResponseFindsNothing | lib/mock-fetch.ts:99-105 | `mockResponse` naming a removed record or its promise throws "No request to respond to!", or when silent returns `undefined`; the state is unchanged |
| Properties.RemovedMockErrorFindsNothing | lib/mock-fetch.ts:143-149 | `mockError` naming a removed record or its promise throws "No request to respond to!", or when silent has no effect |
| Properties.PopThenNeverAgain | lib/mock-fetch.ts:62-84 | a record `popQueueItem` removes is gone for good: after any further calls neither it nor its promise is queued, and `mockResponse` or `mockError` naming either finds nothing and changes nothing |
| Properties.ResetThenNeverAgain | lib/mock-fetch.ts:173-176 | every record `reset` clears is gone for good in the same sense: after any further calls, completions naming it or its promise find nothing |
| Properties.PopKeepsRetired | lib/mock-fetch.ts:62-84 | a removal never brings a retired record back and never changes its promise's state |
| Properties.MockResponseKeepsRetired | lib/mock-fetch.ts:99-134 | `mockResponse` never brings a retired record back and never re-settles its promise |
| Properties.MockErrorKeepsRetired | lib/mock-fetch.ts:143-154 | `mockError` never brings a retired record back and never re-settles its promise |
| Properties.AfterPopKeepsRetired | lib/mock-fetch.ts:42-84 | none of the three removal calls brings a retired record back or changes its promise |
| Properties.AfterCompletionKeepsRetired | lib/mock-fetch.ts:93-155 | neither completion call brings a retired record back or changes its promise |
| Properties.AfterKeepsRetired | lib/mock-fetch.ts:21-176 | no API call brings a retired record back or changes how its promise was settled (records are removed and never reinserted) |
| Properties.RunKeepsRetired | lib/mock-fetch.ts:21-176 | after any sequence of API calls a retired record is still not queued and its promise is still settled the same way |
| Properties.MockResponseRetires | lib/mock-fetch.ts:99-134 | the record `mockResponse` completes is retired, its promise resolved with the merged response |
| Properties.MockErrorRetires | lib/mock-fetch.ts:143-154 | the record `mockError` rejects is retired, its promise rejected with the given reason (`{}` for `undefined`) |
| Properties.MockResponseAtMostOnceAcrossRuns | lib/mock-fetch.ts:93-135 | once `mockResponse` has completed a request, after any further sequence of calls the promise is still resolved with that same response, and a later `mockResponse` naming the request or its promise finds nothing: it throws unless silent and changes nothing. So each promise is settled at most once |
| Properties.MockErrorAtMostOnceAcrossRuns | lib/mock-fetch.ts:137-155 | once `mockError` has rejected a request, after any further sequence of calls the promise is still rejected with the same reason, and a later `mockError` naming the request or its promise finds nothing |
| Properties.PopPromiseReturnsGiven | lib/mock-fetch.ts:42-46 | `popPromise(p)` for a queued promise `p` returns `p` and removes exactly its record |
| Properties.PopRequestReturnsGiven | lib/mock-fetch.ts:52-56 | `popRequest(r)` for a queued record `r` returns `r` and removes exactly it |
| Properties.DefaultCompletionStep | lib/mock-fetch.ts:79-83 | an argument-less `mockResponse()` that returns has taken the head record and resolved it with the default response for its url |
| Properties.HeadCompletion | lib/mock-fetch.ts:99-134 | with a request pending, an argument-less `mockResponse()` returns, removes the head and resolves its promise with the defaults |
| Properties.CompletionsResolveHeads | lib/mock-fetch.ts:79-83 | in a run of argument-less `mockResponse()` calls that all return, each call took the head record and resolved its promise with the defaults |
| Properties.HeadsResolvedInOrder | lib/mock-fetch.ts:79-83 | n steps that each resolve the head of a queue with distinct promises resolve the n oldest records in order, leave the rest queued in order and change no other promise |
| Properties.DefaultCompletionsCons | lib/mock-fetch.ts:79-83 | a returning argument-less `mockResponse()` followed by a run of such calls is again such a run |
| Properties.DefaultCompletionIsFifo | lib/mock-fetch.ts:79-83 | any run of argument-less `mockResponse()` calls resolves the oldest requests in request order: the k-th call resolves the k-th oldest request, later requests stay queued in order, and no other promise changes |
| Properties.DefaultCompletionsExist | lib/mock-fetch.ts:79-83 | with at least n requests queued, n argument-less `mockResponse()` calls in a row all return, so the FIFO statement above covers every such sequence of calls |
| Properties.InvHasDistinctPromises | lib/mock-fetch.ts:19-30 | in a reachable state no two queued records share a promise |
| Properties.ThreeRequestsResolveInOrder | test/mock-fetch.spec.ts:53-82 | three requests and three argument-less `mockResponse()` calls: after the k-th call exactly the first k promises are resolved, each with the defaults, and at the end the queue is empty |
| Properties.DefaultResponse | lib/mock-fetch.ts:109-124 | `mockResponse()` without overrides resolves with the full default record: status 200, "OK", `ok` true, the request's url |
| Properties.StatusOverride | lib/mock-fetch.ts:126-130 | `mockResponse({status: 404})` yields status 404 and keeps every other default field |
| Properties.UrlLookupPrefersNewest | lib/mock-fetch.ts:166-171 | after two requests to the same url, `getReqByUrl` returns the newer one |
| Properties.ResetIdempotent | lib/mock-fetch.ts:173-176 | after `reset` the queue is empty and no lookup finds anything; a second `reset` changes nothing |

## Left out

- Wrapping `fetch` in a `jest.fn` spy (lib/mock-fetch.ts:36) is left out. Call recording belongs to the test framework.
- The `console.warn` deprecation notices of `popPromise` and `popRequest` (lib/mock-fetch.ts:43, 53) are left out. They are output only.
- The default body, headers, blob, form data, array buffer and `jest.fn()` spies (lib/mock-fetch.ts:110-123) are opaque tokens (`Values.HostObject`). They are host or library objects.
- jest-mock-promise's continuation scheduling is left out. Only each promise's final state is kept. jest-mock-promise is not part of this model.
- A falsy selector other than `undefined` (`null`, `0`, `""`, `false`) takes the head in the source, because of `if (requestOrPromise)`. The model has only the absent selector for this case.
- A selector that is neither a record nor a promise is not modelled. In the source it matches nothing.
- A `null` response object, which spreads to nothing, is not modelled. Callers pass `map[]` for an omitted or empty one.
- `silentMode` is a `bool`. JavaScript truthiness of other values is not modelled.
- Numbers are unbounded integers. JavaScript's floating-point numbers only matter for `status`, which the mock only copies.
- The module-level singleton queue (lib/mock-fetch.ts:19) is an explicit `State` value that is passed along.
- Settling a queued promise through its own public `resolve` or `reject` (the promise `fetch` returns, lib/mock-fetch.ts:32, 132, 154) is not modelled. Neither is changing a record object returned by `popQueueItem`, `lastReqGet` or `getReqByUrl` (lib/mock-fetch.ts:77, 158, 170); its fields are not read-only (lib/mock-fetch-types.ts:87-92). In the model a record is an immutable `Item` value and a promise changes only through the engine. So `Inv`, `ReachableInv`, the at-most-once lemmas and the never-again lemmas are statements about runs of the ten API calls only.
- lib/mock-fetch-types.ts only declares types. examples/UppercaseProxy.ts is a consumer of the mock. jest.config.js is build configuration.

=== FILE: mock_fetch.dfy ===
/**
 * The request-queue engine of lib/mock-fetch.ts as a state machine: each API
 * call of the mocked `fetch` is a pure transition from one `State` to the
 * next, together with what the call returns or throws.
 */
module MockFetch {
  import opened Wrappers
  import opened Values
  import opened Queue

  /** The final state of a request's promise; it changes from `Pending` at most once. */
  datatype Status = Pending | Resolved(response: Response) | Rejected(reason: Value)

  /** The pending queue, the state of every promise handed out so far, and
      the next fresh record and promise identities. */
  datatype State = State(queue: seq<Item>, promises: map<PromiseId, Status>, nextItem: nat, nextPromise: nat)

  /** A fresh mock: nothing queued, no promise handed out. */
  function Init(): (r: State)
    ensures |r.queue| == 0 && forall p :: p !in r.promises
    ensures Inv(r)
  {
    State([], map[], 0, 0)
  }

  /** The message of the error thrown when a completion finds no request. */
  const NoRequest: string := "No request to respond to!"

  /** The outcome of a call: it returned `value`, or it threw `message`;
      either way the mock is left in `state`. */
  datatype Reply<+T> = Returned(state: State, value: T) | Threw(state: State, message: string)

  /** What every reachable state satisfies: queued records and their promises
      are distinct, every queued promise is still pending, and the fresh-id
      counters lie above every identity in use. */
  ghost predicate Inv(s: State)
  {
    && (forall i, j :: 0 <= i < j < |s.queue| ==>
          s.queue[i].id != s.queue[j].id && s.queue[i].promise != s.queue[j].promise)
    && (forall i :: 0 <= i < |s.queue| ==>
          && s.queue[i].id < s.nextItem
          && s.queue[i].promise in s.promises
          && s.promises[s.queue[i].promise] == Pending)
    && (forall p :: p in s.promises ==> p < s.nextPromise)
  }

  /** The mocked `fetch(url, data, config)`: push a new record with a fresh
      pending promise at the tail and return that promise. */
  function Fetch(s: State, url: string, data: Value, config: Value): (r: (State, PromiseId))
    ensures |r.0.queue| == |s.queue| + 1 && r.0.queue[..|s.queue|] == s.queue
    ensures var it := r.0.queue[|s.queue|];
            it.url == url && it.data == data && it.config == config && it.promise == r.1
    ensures r.0.promises.Keys == s.promises.Keys + {r.1} && r.0.promises[r.1] == Pending
    ensures forall p :: p in s.promises && p != r.1 ==> p in r.0.promises && r.0.promises[p] == s.promises[p]
    ensures Inv(s) ==> r.1 !in s.promises && forall it :: it in s.queue ==> it.id != r.0.queue[|s.queue|].id
    ensures r.0.queue[|s.queue|].id >= s.nextItem && r.1 >= s.nextPromise
    ensures r.0.nextItem > r.0.queue[|s.queue|].id && r.0.nextPromise > r.1
  {
    var promise := s.nextPromise;
    var item := Item(s.nextItem, url, data, config, promise);
    (State(s.queue + [item], s.promises[promise := Pending], s.nextItem + 1, s.nextPromise + 1), promise)
  }

  /** `popQueueItem(sel)` on the mock: only the queue changes. */
  function PopQueueItem(s: State, sel: Option<Ref>): (r: (State, Option<Item>))
    ensures r.0.promises == s.promises && r.0.nextItem == s.nextItem && r.0.nextPromise == s.nextPromise
    ensures r.1.Some? <==> exists i :: Selected(s.queue, sel, i)
    ensures forall i :: Selected(s.queue, sel, i) ==> r.1 == Some(s.queue[i]) && r.0.queue == RemoveAt(s.queue, i)
    ensures r.1.None? ==> r.0 == s
  {
    var p := Pop(s.queue, sel);
    (s.(queue := p.rest), p.item)
  }

  /** (Legacy) `popPromise(sel)`: the same removal, projected to the promise. */
  function PopPromise(s: State, sel: Option<Ref>): (r: (State, Option<PromiseId>))
    ensures r.0 == PopQueueItem(s, sel).0
    ensures r.1.Some? <==> exists i :: Selected(s.queue, sel, i)
    ensures forall i :: Selected(s.queue, sel, i) ==> r.1 == Some(s.queue[i].promise)
  {
    var (s', item) := PopQueueItem(s, sel);
    (s', if item.Some? then Some(item.value.promise) else None)
  }

  /** (Legacy) `popRequest(sel)`: the same removal, returning the record. */
  function PopRequest(s: State, sel: Option<Ref>): (r: (State, Option<Item>))
    ensures r.0 == PopQueueItem(s, sel).0
    ensures r.1.Some? <==> exists i :: Selected(s.queue, sel, i)
    ensures forall i :: Selected(s.queue, sel, i) ==> r.1 == Some(s.queue[i])
  {
    PopQueueItem(s, sel)
  }

  /** `mockResponse(overrides, sel, silent)`: remove the selected request and
      resolve its promise with the defaults overridden by `overrides`. */
  function MockResponse(s: State, overrides: Response, sel: Option<Ref>, silent: bool): (r: Reply<Option<Response>>)
    ensures (forall i :: !Selected(s.queue, sel, i)) ==>
              r == if silent then Returned(s, None) else Threw(s, NoRequest)
    ensures forall i :: Selected(s.queue, sel, i) ==>
              var it := s.queue[i];
              var resp := Merge(Defaults(it.url), overrides);
              && r == Returned(r.state, Some(resp))
              && r.state.queue == RemoveAt(s.queue, i)
              && r.state.promises.Keys == s.promises.Keys + {it.promise}
              && r.state.promises[it.promise] == Resolved(resp)
              && (forall p :: p in s.promises && p != it.promise ==> r.state.promises[p] == s.promises[p])
  {
    var (s', request) := PopQueueItem(s, sel);
    if request.None? && !silent then Threw(s', NoRequest)
    else if request.None? then Returned(s', None)
    else
      var it := request.value;
      var response := Merge(Defaults(it.url), overrides);
      Returned(s'.(promises := s'.promises[it.promise := Resolved(response)]), Some(response))
  }

  /** `mockError(error, sel, silent)`: remove the selected request and reject
      its promise with `error` as given, `{}` when it is `undefined`. */
  function MockError(s: State, error: Value, sel: Option<Ref>, silent: bool): (r: Reply<()>)
    ensures (forall i :: !Selected(s.queue, sel, i)) ==>
              r == if silent then Returned(s, ()) else Threw(s, NoRequest)
    ensures forall i :: Selected(s.queue, sel, i) ==>
              var it := s.queue[i];
              && r.Returned?
              && r.state.queue == RemoveAt(s.queue, i)
              && r.state.promises.Keys == s.promises.Keys + {it.promise}
              && r.state.promises[it.promise] == Rejected(if error == Undefined then EmptyObject else error)
              && (forall p :: p in s.promises && p != it.promise ==> r.state.promises[p] == s.promises[p])
  {
    var payload := if error == Undefined then EmptyObject else error;
    var (s', request) := PopQueueItem(s, sel);
    if request.None? && !silent then Threw(s', NoRequest)
    else if request.None? then Returned(s', ())
    else
      var it := request.value;
      Returned(s'.(promises := s'.promises[it.promise := Rejected(payload)]), ())
  }

  /** `lastReqGet()`: the newest record, `undefined` on an empty queue. */
  function LastReqGet(s: State): (r: Option<Item>)
    ensures r.None? <==> |s.queue| == 0
    ensures |s.queue| > 0 ==> r == Some(s.queue[|s.queue| - 1])
  {
    if |s.queue| == 0 then None else Some(s.queue[|s.queue| - 1])
  }

  /** `lastPromiseGet()`: the newest record's promise. */
  function LastPromiseGet(s: State): (r: Option<PromiseId>)
    ensures r.None? <==> |s.queue| == 0
    ensures |s.queue| > 0 ==> r == Some(s.queue[|s.queue| - 1].promise)
  {
    match LastReqGet(s)
    case None => None
    case Some(req) => Some(req.promise)
  }

  /** `getReqByUrl(url)` on the mock: the newest queued record whose url is
      exactly `url`, `undefined` when no queued record has that url. */
  function GetReqByUrl(s: State, url: string): (r: Option<Item>)
    ensures r.None? <==> forall i :: 0 <= i < |s.queue| ==> s.queue[i].url != url
    ensures r.Some? ==> exists i :: 0 <= i < |s.queue| && s.queue[i] == r.value && r.value.url == url
                                    && forall j :: i < j < |s.queue| ==> s.queue[j].url != url
  {
    ReqByUrl(s.queue, url)
  }

  /** The state of promise `p`, `None` for a promise the mock never handed out. */
  function StatusOf(s: State, p: PromiseId): (r: Option<Status>)
  {
    if p in s.promises then Some(s.promises[p]) else None
  }

  /** `reset()`: drop every queued request; promises keep their state. */
  function Reset(s: State): (r: State)
    ensures r.queue == []
    ensures r.promises == s.promises
  {
    s.(queue := [])
  }
}

=== FILE: properties.dfy ===
/**
 * Properties of the mocked-fetch engine that relate several calls: the
 * reachable-state invariant, settlement at most once, FIFO completion order,
 * selector precision, the default/override response and url recency.
 */
module Properties {
  import opened Wrappers
  import opened Values
  import opened Queue
  import opened MockFetch

  // ---------------------------------------------------------------------
  // Fetch and the read-only accessors
  // ---------------------------------------------------------------------

  /** After `fetch(url, data, config)` the newest record is the one just
      pushed and the newest promise is the one just returned. */
  lemma FetchThenLast(s: State, url: string, data: Value, config: Value)
    ensures var (s', p) := Fetch(s, url, data, config);
            && LastReqGet(s').Some?
            && LastReqGet(s').value.url == url
            && LastReqGet(s').value.data == data
            && LastReqGet(s').value.config == config
            && LastReqGet(s').value.promise == p
            && LastPromiseGet(s') == Some(p)
            && s'.promises[p] == Pending
  {
  }

  // ---------------------------------------------------------------------
  // The invariant of reachable states
  // ---------------------------------------------------------------------

  lemma FetchKeepsInv(s: State, url: string, data: Value, config: Value)
    requires Inv(s)
    ensures Inv(Fetch(s, url, data, config).0)
  {
  }

  /** Dropping one queued record keeps the invariant. */
  lemma RemoveKeepsInv(s: State, i: nat)
    requires Inv(s) && i < |s.queue|
    ensures Inv(s.(queue := RemoveAt(s.queue, i)))
  {
    var q := s.queue;
    var r := RemoveAt(q, i);
    forall a, b | 0 <= a < b < |r|
      ensures r[a].id != r[b].id && r[a].promise != r[b].promise
    {
      var a' := if a < i then a else a + 1;
      var b' := if b < i then b else b + 1;
      assert r[a] == q[a'] && r[b] == q[b'] && a' < b';
    }
    forall a | 0 <= a < |r|
      ensures r[a].id < s.nextItem && r[a].promise in s.promises && s.promises[r[a].promise] == Pending
    {
      var a' := if a < i then a else a + 1;
      assert r[a] == q[a'];
    }
  }

  /** Removing the record at `i` and settling its promise keeps the
      invariant: no other queued record shares that promise. */
  lemma SettleRemovedKeepsInv(s: State, i: nat, st: Status)
    requires Inv(s) && i < |s.queue|
    ensures Inv(State(RemoveAt(s.queue, i), s.promises[s.queue[i].promise := st], s.nextItem, s.nextPromise))
  {
    var q := s.queue;
    var r := RemoveAt(q, i);
    RemoveKeepsInv(s, i);
    forall a | 0 <= a < |r|
      ensures r[a].promise != q[i].promise
    {
      var a' := if a < i then a else a + 1;
      assert r[a] == q[a'] && a' != i;
    }
  }

  lemma PopKeepsInv(s: State, sel: Option<Ref>)
    requires Inv(s)
    ensures Inv(PopQueueItem(s, sel).0)
  {
    if i :| Selected(s.queue, sel, i) {
      RemoveKeepsInv(s, i);
    }
  }

  lemma MockResponseKeepsInv(s: State, overrides: Response, sel: Option<Ref>, silent: bool)
    requires Inv(s)
    ensures Inv(MockResponse(s, overrides, sel, silent).state)
  {
    if i :| Selected(s.queue, sel, i) {
      var st := Resolved(Merge(Defaults(s.queue[i].url), overrides));
      SettleRemovedKeepsInv(s, i, st);
    }
  }

  lemma MockErrorKeepsInv(s: State, error: Value, sel: Option<Ref>, silent: bool)
    requires Inv(s)
    ensures Inv(MockError(s, error, sel, silent).state)
  {
    if i :| Selected(s.queue, sel, i) {
      var st := Rejected(if error == Undefined then EmptyObject else error);
      SettleRemovedKeepsInv(s, i, st);
    }
  }

  lemma ResetKeepsInv(s: State)
    requires Inv(s)
    ensures Inv(Reset(s))
  {
  }

  /** One call of the mock's public API. */
  datatype Call =
    | CallFetch(url: string, data: Value, config: Value)
    | CallPopQueueItem(sel: Option<Ref>)
    | CallPopPromise(sel: Option<Ref>)
    | CallPopRequest(sel: Option<Ref>)
    | CallMockResponse(overrides: Response, sel: Option<Ref>, silent: bool)
    | CallMockError(error: Value, sel: Option<Ref>, silent: bool)
    | CallLastReqGet
    | CallLastPromiseGet
    | CallGetReqByUrl(url: string)
    | CallReset

  /** The mock's state after `c`, whether the call returned or threw. */
  function After(s: State, c: Call): (r: State)
  {
    match c
    case CallFetch(url, data, config) => Fetch(s, url, data, config).0
    case CallPopQueueItem(sel) => PopQueueItem(s, sel).0
    case CallPopPromise(sel) => PopPromise(s, sel).0
    case CallPopRequest(sel) => PopRequest(s, sel).0
    case CallMockResponse(overrides, sel, silent) => MockResponse(s, overrides, sel, silent).state
    case CallMockError(error, sel, silent) => MockError(s, error, sel, silent).state
    case CallLastReqGet => s
    case CallLastPromiseGet => s
    case CallGetReqByUrl(_) => s
    case CallReset => Reset(s)
  }

  /** The state after a sequence of calls. */
  function Run(s: State, calls: seq<Call>): (r: State)
    decreases |calls|
  {
    if |calls| == 0 then s else Run(After(s, calls[0]), calls[1..])
  }

  /** The removals keep the invariant, whichever of the three names is used. */
  lemma AfterPopKeepsInv(s: State, c: Call)
    requires Inv(s)
    requires c.CallPopQueueItem? || c.CallPopPromise? || c.CallPopRequest?
    ensures Inv(After(s, c))
  {
    PopKeepsInv(s, c.sel);
  }

  /** The completions keep the invariant. */
  lemma AfterCompletionKeepsInv(s: State, c: Call)
    requires Inv(s)
    requires c.CallMockResponse? || c.CallMockError?
    ensures Inv(After(s, c))
  {
    if c.CallMockResponse? {
      MockResponseKeepsInv(s, c.overrides, c.sel, c.silent);
    } else {
      MockErrorKeepsInv(s, c.error, c.sel, c.silent);
    }
  }

  lemma AfterKeepsInv(s: State, c: Call)
    requires Inv(s)
    ensures Inv(After(s, c))
  {
    if c.CallFetch? {
      FetchKeepsInv(s, c.url, c.data, c.config);
    } else if c.CallPopQueueItem? || c.CallPopPromise? || c.CallPopRequest? {
      AfterPopKeepsInv(s, c);
    } else if c.CallMockResponse? || c.CallMockError? {
      AfterCompletionKeepsInv(s, c);
    } else if c.CallReset? {
      ResetKeepsInv(s);
    }
  }

  /** Every state reachable from a fresh mock satisfies the invariant. */
  lemma {:induction false} RunKeepsInv(s: State, calls: seq<Call>)
    requires Inv(s)
    ensures Inv(Run(s, calls))
    decreases |calls|
  {
    if |calls| > 0 {
      AfterKeepsInv(s, calls[0]);
      RunKeepsInv(After(s, calls[0]), calls[1..]);
    }
  }

  lemma ReachableInv(calls: seq<Call>)
    ensures Inv(Run(Init(), calls))
  {
    RunKeepsInv(Init(), calls);
  }

  // ---------------------------------------------------------------------
  // Settlement at most once, selector precision
  // ---------------------------------------------------------------------

  /** A `mockResponse` that finds its request settles exactly that request's
      promise, which was still pending, and leaves every other promise as it was. */
  lemma MockResponseSettlesPendingOnly(s: State, overrides: Response, sel: Option<Ref>, silent: bool, i: int)
    requires Inv(s)
    requires Selected(s.queue, sel, i)
    ensures var r := MockResponse(s, overrides, sel, silent);
            var p := s.queue[i].promise;
            && p in s.promises && s.promises[p] == Pending
            && r.Returned? && r.value.Some?
            && r.state.promises.Keys == s.promises.Keys
            && r.state.promises[p] == Resolved(r.value.value)
            && (forall p' :: p' in s.promises && p' != p ==> r.state.promises[p'] == s.promises[p'])
  {
    // Without this equation the solver unfolds `MockResponse` and the
    // response merge along every branch, several times the cost.
    var r := MockResponse(s, overrides, sel, silent);
    assert r == Returned(r.state, Some(Merge(Defaults(s.queue[i].url), overrides)));
  }

  /** A `mockError` that finds its request settles exactly that request's
      promise, which was still pending, and leaves every other promise as it was. */
  lemma MockErrorSettlesPendingOnly(s: State, error: Value, sel: Option<Ref>, silent: bool, i: int)
    requires Inv(s)
    requires Selected(s.queue, sel, i)
    ensures var r := MockError(s, error, sel, silent);
            var p := s.queue[i].promise;
            && p in s.promises && s.promises[p] == Pending
            && r.Returned?
            && r.state.promises.Keys == s.promises.Keys
            && r.state.promises[p] == Rejected(if error == Undefined then EmptyObject else error)
            && (forall p' :: p' in s.promises && p' != p ==> r.state.promises[p'] == s.promises[p'])
  {
    // As above: without the reply's shape stated once, the solver unfolds
    // `MockError` along every branch, several times the cost.
    var r := MockError(s, error, sel, silent);
    assert r.Returned? && r.state.promises.Keys == s.promises.Keys + {s.queue[i].promise};
  }

  /** In a queue of distinct records with distinct promises, a reference to
      the record at `i` or to its promise matches nothing once it is removed. */
  lemma RemoveAtDropsRef(q: seq<Item>, i: nat, ref: Ref)
    requires i < |q|
    requires forall a, b :: 0 <= a < b < |q| ==> q[a].id != q[b].id && q[a].promise != q[b].promise
    requires IsRecord(ref, q[i]) || HoldsPromise(ref, q[i])
    ensures forall a :: 0 <= a < |RemoveAt(q, i)| ==> !IsRecord(ref, RemoveAt(q, i)[a]) && !HoldsPromise(ref, RemoveAt(q, i)[a])
  {
    var r := RemoveAt(q, i);
    forall a | 0 <= a < |r|
      ensures !IsRecord(ref, r[a]) && !HoldsPromise(ref, r[a])
    {
      var a' := if a < i then a else a + 1;
      assert r[a] == q[a'] && a' != i;
      assert q[a'].id != q[i].id && q[a'].promise != q[i].promise;
    }
  }

  /** Once a selector has taken its record out, it selects nothing any more. */
  lemma SelectorMatchesOnce(s: State, ref: Ref)
    requires Inv(s)
    requires PopQueueItem(s, Some(ref)).1.Some?
    ensures forall k :: !Selected(PopQueueItem(s, Some(ref)).0.queue, Some(ref), k)
  {
    var q := s.queue;
    var i :| Selected(q, Some(ref), i);
    assert IsRecord(ref, q[i]) || HoldsPromise(ref, q[i]);
    RemoveAtDropsRef(q, i, ref);
  }

  /** A second `mockResponse` with the same selector finds nothing: it throws
      unless silent, and then changes nothing. */
  lemma MockResponseAtMostOnce(s: State, o1: Response, o2: Response, ref: Ref, silent1: bool, silent2: bool)
    requires Inv(s)
    requires exists i :: Selected(s.queue, Some(ref), i)
    ensures var s' := MockResponse(s, o1, Some(ref), silent1).state;
            MockResponse(s', o2, Some(ref), silent2)
              == if silent2 then Returned(s', None) else Threw(s', NoRequest)
  {
    SelectorMatchesOnce(s, ref);
  }

  /** A second `mockError` with the same selector finds nothing either. */
  lemma MockErrorAtMostOnce(s: State, e1: Value, e2: Value, ref: Ref, silent1: bool, silent2: bool)
    requires Inv(s)
    requires exists i :: Selected(s.queue, Some(ref), i)
    ensures var s' := MockError(s, e1, Some(ref), silent1).state;
            MockError(s', e2, Some(ref), silent2)
              == if silent2 then Returned(s', ()) else Threw(s', NoRequest)
  {
    SelectorMatchesOnce(s, ref);
  }

  // ---------------------------------------------------------------------
  // Removed records never come back
  // ---------------------------------------------------------------------

  /** Record `id` and promise `pid` were handed out and no queued record
      has either of them any more. */
  ghost predicate Removed(s: State, id: ItemId, pid: PromiseId)
  {
    && id < s.nextItem && pid < s.nextPromise
    && (forall k :: 0 <= k < |s.queue| ==> s.queue[k].id != id && s.queue[k].promise != pid)
  }

  /** A removed record or promise selects nothing. */
  lemma RemovedSelectsNothing(s: State, id: ItemId, pid: PromiseId)
    requires Removed(s, id, pid)
    ensures forall k :: !Selected(s.queue, Some(ItemRef(id)), k)
    ensures forall k :: !Selected(s.queue, Some(PromiseRef(pid)), k)
  {
  }

  /** `splice(ix, 1)` brings in no record: identities held by no record other
      than the removed one are held by none afterwards. */
  lemma RemoveAtKeepsRemoved(q: seq<Item>, i: nat, id: ItemId, pid: PromiseId)
    requires i < |q|
    requires forall k :: 0 <= k < |q| && k != i ==> q[k].id != id && q[k].promise != pid
    ensures forall k :: 0 <= k < |RemoveAt(q, i)| ==> RemoveAt(q, i)[k].id != id && RemoveAt(q, i)[k].promise != pid
  {
    var r := RemoveAt(q, i);
    forall a | 0 <= a < |r|
      ensures r[a].id != id && r[a].promise != pid
    {
      var a' := if a < i then a else a + 1;
      assert r[a] == q[a'];
    }
  }

  /** In a reachable state, the record at `i` shares neither its identity
      nor its promise with any other queued record. */
  lemma OthersDiffer(s: State, i: nat)
    requires Inv(s) && i < |s.queue|
    ensures forall k :: 0 <= k < |s.queue| && k != i ==>
              s.queue[k].id != s.queue[i].id && s.queue[k].promise != s.queue[i].promise
  {
    forall k | 0 <= k < |s.queue| && k != i
      ensures s.queue[k].id != s.queue[i].id && s.queue[k].promise != s.queue[i].promise
    {
      if k < i {
        assert s.queue[k].id != s.queue[i].id && s.queue[k].promise != s.queue[i].promise;
      }
    }
  }

  /** Whatever a removal takes, it takes nothing back in. */
  lemma AfterPopKeepsRemoved(s: State, c: Call, id: ItemId, pid: PromiseId)
    requires Removed(s, id, pid)
    requires c.CallPopQueueItem? || c.CallPopPromise? || c.CallPopRequest?
    ensures Removed(After(s, c), id, pid)
  {
    if i :| Selected(s.queue, c.sel, i) {
      RemoveAtKeepsRemoved(s.queue, i, id, pid);
    }
  }

  /** Whatever a completion takes, it takes nothing back in. */
  lemma AfterCompletionKeepsRemoved(s: State, c: Call, id: ItemId, pid: PromiseId)
    requires Removed(s, id, pid)
    requires c.CallMockResponse? || c.CallMockError?
    ensures Removed(After(s, c), id, pid)
  {
    if i :| Selected(s.queue, c.sel, i) {
      RemoveAtKeepsRemoved(s.queue, i, id, pid);
    }
  }

  /** No API call brings a removed record or promise back: `fetch` pushes a
      fresh record with a fresh promise, and nothing else adds to the queue. */
  lemma AfterKeepsRemoved(s: State, c: Call, id: ItemId, pid: PromiseId)
    requires Removed(s, id, pid)
    ensures Removed(After(s, c), id, pid)
  {
    if c.CallPopQueueItem? || c.CallPopPromise? || c.CallPopRequest? {
      AfterPopKeepsRemoved(s, c, id, pid);
    } else if c.CallMockResponse? || c.CallMockError? {
      AfterCompletionKeepsRemoved(s, c, id, pid);
    }
  }

  /** Any sequence of API calls keeps a removed record removed. */
  lemma {:induction false} RunKeepsRemoved(s: State, calls: seq<Call>, id: ItemId, pid: PromiseId)
    requires Removed(s, id, pid)
    ensures Removed(Run(s, calls), id, pid)
    decreases |calls|
  {
    if |calls| > 0 {
      AfterKeepsRemoved(s, calls[0], id, pid);
      RunKeepsRemoved(After(s, calls[0]), calls[1..], id, pid);
    }
  }

  /** A `mockResponse` naming a removed record or its promise finds nothing. */
  lemma RemovedMockResponseFindsNothing(s: State, id: ItemId, pid: PromiseId, o: Response, silent: bool)
    requires Removed(s, id, pid)
    ensures var none := if silent then Returned(s, None) else Threw(s, NoRequest);
            && MockResponse(s, o, Some(ItemRef(id)), silent) == none
            && MockResponse(s, o, Some(PromiseRef(pid)), silent) == none
  {
    RemovedSelectsNothing(s, id, pid);
  }

  /** A `mockError` naming a removed record or its promise finds nothing. */
  lemma RemovedMockErrorFindsNothing(s: State, id: ItemId, pid: PromiseId, e: Value, silent: bool)
    requires Removed(s, id, pid)
    ensures var none := if silent then Returned(s, ()) else Threw(s, NoRequest);
            && MockError(s, e, Some(ItemRef(id)), silent) == none
            && MockError(s, e, Some(PromiseRef(pid)), silent) == none
  {
    RemovedSelectsNothing(s, id, pid);
  }

  /** A record that `popQueueItem` (or `popPromise`, `popRequest`) took out is
      gone for good: after any further calls, neither it nor its promise is
      queued, and completions naming either find nothing. */
  lemma PopThenNeverAgain(s: State, sel: Option<Ref>, i: int, calls: seq<Call>, o: Response, e: Value, silent: bool)
    requires Inv(s)
    requires Selected(s.queue, sel, i)
    ensures var it := s.queue[i];
            var s2 := Run(PopQueueItem(s, sel).0, calls);
            && Removed(s2, it.id, it.promise)
            && MockResponse(s2, o, Some(ItemRef(it.id)), silent) == (if silent then Returned(s2, None) else Threw(s2, NoRequest))
            && MockResponse(s2, o, Some(PromiseRef(it.promise)), silent) == (if silent then Returned(s2, None) else Threw(s2, NoRequest))
            && MockError(s2, e, Some(ItemRef(it.id)), silent) == (if silent then Returned(s2, ()) else Threw(s2, NoRequest))
            && MockError(s2, e, Some(PromiseRef(it.promise)), silent) == (if silent then Returned(s2, ()) else Threw(s2, NoRequest))
  {
    var it := s.queue[i];
    var s1 := PopQueueItem(s, sel).0;
    OthersDiffer(s, i);
    RemoveAtKeepsRemoved(s.queue, i, it.id, it.promise);
    assert Removed(s1, it.id, it.promise);
    RunKeepsRemoved(s1, calls, it.id, it.promise);
    RemovedMockResponseFindsNothing(Run(s1, calls), it.id, it.promise, o, silent);
    RemovedMockErrorFindsNothing(Run(s1, calls), it.id, it.promise, e, silent);
  }

  /** Every record `reset` clears is gone for good in the same sense. */
  lemma ResetThenNeverAgain(s: State, i: int, calls: seq<Call>, o: Response, e: Value, silent: bool)
    requires Inv(s)
    requires 0 <= i < |s.queue|
    ensures var it := s.queue[i];
            var s2 := Run(Reset(s), calls);
            && Removed(s2, it.id, it.promise)
            && MockResponse(s2, o, Some(ItemRef(it.id)), silent) == (if silent then Returned(s2, None) else Threw(s2, NoRequest))
            && MockResponse(s2, o, Some(PromiseRef(it.promise)), silent) == (if silent then Returned(s2, None) else Threw(s2, NoRequest))
            && MockError(s2, e, Some(ItemRef(it.id)), silent) == (if silent then Returned(s2, ()) else Threw(s2, NoRequest))
            && MockError(s2, e, Some(PromiseRef(it.promise)), silent) == (if silent then Returned(s2, ()) else Threw(s2, NoRequest))
  {
    var it := s.queue[i];
    assert Removed(Reset(s), it.id, it.promise);
    RunKeepsRemoved(Reset(s), calls, it.id, it.promise);
    RemovedMockResponseFindsNothing(Run(Reset(s), calls), it.id, it.promise, o, silent);
    RemovedMockErrorFindsNothing(Run(Reset(s), calls), it.id, it.promise, e, silent);
  }

  // ---------------------------------------------------------------------
  // Settled promises stay settled the same way
  // ---------------------------------------------------------------------

  /** Record `id` and promise `pid` are retired: removed, with the promise
      settled as `st`. */
  ghost predicate Retired(s: State, id: ItemId, pid: PromiseId, st: Status)
  {
    && Removed(s, id, pid)
    && st != Pending && pid in s.promises && s.promises[pid] == st
  }

  lemma PopKeepsRetired(s: State, sel: Option<Ref>, id: ItemId, pid: PromiseId, st: Status)
    requires Retired(s, id, pid, st)
    ensures Retired(PopQueueItem(s, sel).0, id, pid, st)
  {
    if i :| Selected(s.queue, sel, i) {
      RemoveAtKeepsRemoved(s.queue, i, id, pid);
    }
  }

  lemma MockResponseKeepsRetired(s: State, o: Response, sel: Option<Ref>, silent: bool, id: ItemId, pid: PromiseId, st: Status)
    requires Retired(s, id, pid, st)
    ensures Retired(MockResponse(s, o, sel, silent).state, id, pid, st)
  {
    if i :| Selected(s.queue, sel, i) {
      assert s.queue[i].promise != pid;
      RemoveAtKeepsRemoved(s.queue, i, id, pid);
    }
  }

  lemma MockErrorKeepsRetired(s: State, e: Value, sel: Option<Ref>, silent: bool, id: ItemId, pid: PromiseId, st: Status)
    requires Retired(s, id, pid, st)
    ensures Retired(MockError(s, e, sel, silent).state, id, pid, st)
  {
    if i :| Selected(s.queue, sel, i) {
      assert s.queue[i].promise != pid;
      RemoveAtKeepsRemoved(s.queue, i, id, pid);
    }
  }

  /** No removal re-settles a retired promise. */
  lemma AfterPopKeepsRetired(s: State, c: Call, id: ItemId, pid: PromiseId, st: Status)
    requires Retired(s, id, pid, st)
    requires c.CallPopQueueItem? || c.CallPopPromise? || c.CallPopRequest?
    ensures Retired(After(s, c), id, pid, st)
  {
    PopKeepsRetired(s, c.sel, id, pid, st);
  }

  /** No completion re-settles a retired promise. */
  lemma AfterCompletionKeepsRetired(s: State, c: Call, id: ItemId, pid: PromiseId, st: Status)
    requires Retired(s, id, pid, st)
    requires c.CallMockResponse? || c.CallMockError?
    ensures Retired(After(s, c), id, pid, st)
  {
    if c.CallMockResponse? {
      MockResponseKeepsRetired(s, c.overrides, c.sel, c.silent, id, pid, st);
    } else {
      MockErrorKeepsRetired(s, c.error, c.sel, c.silent, id, pid, st);
    }
  }

  /** No API call brings a retired record back or changes how its promise
      was settled. */
  lemma AfterKeepsRetired(s: State, c: Call, id: ItemId, pid: PromiseId, st: Status)
    requires Retired(s, id, pid, st)
    ensures Retired(After(s, c), id, pid, st)
  {
    if c.CallPopQueueItem? || c.CallPopPromise? || c.CallPopRequest? {
      AfterPopKeepsRetired(s, c, id, pid, st);
    } else if c.CallMockResponse? || c.CallMockError? {
      AfterCompletionKeepsRetired(s, c, id, pid, st);
    }
  }

  /** Any sequence of API calls keeps a retired record retired. */
  lemma {:induction false} RunKeepsRetired(s: State, calls: seq<Call>, id: ItemId, pid: PromiseId, st: Status)
    requires Retired(s, id, pid, st)
    ensures Retired(Run(s, calls), id, pid, st)
    decreases |calls|
  {
    if |calls| > 0 {
      AfterKeepsRetired(s, calls[0], id, pid, st);
      RunKeepsRetired(After(s, calls[0]), calls[1..], id, pid, st);
    }
  }

  /** `mockResponse` retires the record it completes. */
  lemma MockResponseRetires(s: State, o: Response, sel: Option<Ref>, silent: bool, i: int)
    requires Inv(s)
    requires Selected(s.queue, sel, i)
    ensures var s1 := MockResponse(s, o, sel, silent).state;
            Retired(s1, s.queue[i].id, s.queue[i].promise, Resolved(Merge(Defaults(s.queue[i].url), o)))
  {
    OthersDiffer(s, i);
    RemoveAtKeepsRemoved(s.queue, i, s.queue[i].id, s.queue[i].promise);
  }

  /** `mockError` retires the record it rejects. */
  lemma MockErrorRetires(s: State, e: Value, sel: Option<Ref>, silent: bool, i: int)
    requires Inv(s)
    requires Selected(s.queue, sel, i)
    ensures var s1 := MockError(s, e, sel, silent).state;
            Retired(s1, s.queue[i].id, s.queue[i].promise, Rejected(if e == Undefined then EmptyObject else e))
  {
    OthersDiffer(s, i);
    RemoveAtKeepsRemoved(s.queue, i, s.queue[i].id, s.queue[i].promise);
  }

  /** Once `mockResponse` has completed a request, whatever calls follow,
      the request stays resolved with the same response, and a later
      `mockResponse` naming that request or its promise finds nothing: it
      throws unless silent, and changes nothing. */
  lemma MockResponseAtMostOnceAcrossRuns(s: State, o: Response, sel: Option<Ref>, silent: bool, i: int,
                                         calls: seq<Call>, o2: Response, silent2: bool)
    requires Inv(s)
    requires Selected(s.queue, sel, i)
    ensures var it := s.queue[i];
            var s2 := Run(MockResponse(s, o, sel, silent).state, calls);
            var none := if silent2 then Returned(s2, None) else Threw(s2, NoRequest);
            && StatusOf(s2, it.promise) == Some(Resolved(Merge(Defaults(it.url), o)))
            && MockResponse(s2, o2, Some(ItemRef(it.id)), silent2) == none
            && MockResponse(s2, o2, Some(PromiseRef(it.promise)), silent2) == none
  {
    var it := s.queue[i];
    var st := Resolved(Merge(Defaults(it.url), o));
    var s1 := MockResponse(s, o, sel, silent).state;
    MockResponseRetires(s, o, sel, silent, i);
    RunKeepsRetired(s1, calls, it.id, it.promise, st);
    RemovedMockResponseFindsNothing(Run(s1, calls), it.id, it.promise, o2, silent2);
  }

  /** Once `mockError` has rejected a request, whatever calls follow, it
      stays rejected with the same reason, and a later `mockError` naming
      that request or its promise finds nothing. */
  lemma MockErrorAtMostOnceAcrossRuns(s: State, e: Value, sel: Option<Ref>, silent: bool, i: int,
                                      calls: seq<Call>, e2: Value, silent2: bool)
    requires Inv(s)
    requires Selected(s.queue, sel, i)
    ensures var it := s.queue[i];
            var s2 := Run(MockError(s, e, sel, silent).state, calls);
            var none := if silent2 then Returned(s2, ()) else Threw(s2, NoRequest);
            && StatusOf(s2, it.promise) == Some(Rejected(if e == Undefined then EmptyObject else e))
            && MockError(s2, e2, Some(ItemRef(it.id)), silent2) == none
            && MockError(s2, e2, Some(PromiseRef(it.promise)), silent2) == none
  {
    var it := s.queue[i];
    var st := Rejected(if e == Undefined then EmptyObject else e);
    var s1 := MockError(s, e, sel, silent).state;
    MockErrorRetires(s, e, sel, silent, i);
    RunKeepsRetired(s1, calls, it.id, it.promise, st);
    RemovedMockErrorFindsNothing(Run(s1, calls), it.id, it.promise, e2, silent2);
  }

  /** `popPromise(p)` for a queued promise `p` returns `p` and removes
      exactly its record. */
  lemma PopPromiseReturnsGiven(s: State, i: nat)
    requires Inv(s) && i < |s.queue|
    ensures var (s', p) := PopPromise(s, Some(PromiseRef(s.queue[i].promise)));
            p == Some(s.queue[i].promise) && s'.queue == RemoveAt(s.queue, i)
  {
    var ref := PromiseRef(s.queue[i].promise);
    assert forall j :: 0 <= j < |s.queue| ==> !IsRecord(ref, s.queue[j]);
    assert Selected(s.queue, Some(ref), i);
  }

  /** `popRequest(item)` / `popQueueItem(item)` for a queued record returns
      that record and removes exactly it. */
  lemma PopRequestReturnsGiven(s: State, i: nat)
    requires Inv(s) && i < |s.queue|
    ensures var (s', it) := PopRequest(s, Some(ItemRef(s.queue[i].id)));
            it == Some(s.queue[i]) && s'.queue == RemoveAt(s.queue, i)
  {
    assert Selected(s.queue, Some(ItemRef(s.queue[i].id)), i);
  }

  // ---------------------------------------------------------------------
  // FIFO order of default completions
  // ---------------------------------------------------------------------

  /** No two queued records share a promise. This is the promise half of
      the first conjunct of `Inv`; the FIFO lemmas take only this weaker
      premise, so they hold in any state, reachable or not. */
  ghost predicate DistinctPromises(q: seq<Item>)
  {
    forall a, b :: 0 <= a < b < |q| ==> q[a].promise != q[b].promise
  }

  /** `trace` is the mock before and after each of `|replies|` argument-less
      `mockResponse()` calls that returned, `replies[k]` the k-th result. */
  ghost predicate DefaultCompletions(trace: seq<State>, replies: seq<Option<Response>>)
  {
    && |trace| == |replies| + 1
    && forall k :: 0 <= k < |replies| ==>
         MockResponse(trace[k], map[], None, false) == Returned(trace[k + 1], replies[k])
  }

  /** One argument-less `mockResponse()` that returns took the head of the
      queue and resolved it with its default response. */
  lemma DefaultCompletionStep(s: State, s': State, reply: Option<Response>)
    requires MockResponse(s, map[], None, false) == Returned(s', reply)
    ensures |s.queue| > 0
    ensures reply == Some(Defaults(s.queue[0].url))
    ensures s'.queue == s.queue[1..]
    ensures s'.promises == s.promises[s.queue[0].promise := Resolved(Defaults(s.queue[0].url))]
  {
    assert Selected(s.queue, None, 0);
    MergeNothing(Defaults(s.queue[0].url));
  }

  /** With a request pending, an argument-less `mockResponse()` returns. */
  lemma HeadCompletion(s: State)
    requires |s.queue| > 0
    ensures var r := MockResponse(s, map[], None, false);
            && r.Returned?
            && r.state.queue == s.queue[1..]
            && r.state.promises == s.promises[s.queue[0].promise := Resolved(Defaults(s.queue[0].url))]
  {
    assert Selected(s.queue, None, 0);
    MergeNothing(Defaults(s.queue[0].url));
  }

  /** `s'` is `s` with its head request removed and resolved with the
      defaults, and `reply` is that default response. */
  ghost predicate HeadResolved(s: State, s': State, reply: Option<Response>)
  {
    && |s.queue| > 0
    && reply == Some(Defaults(s.queue[0].url))
    && s'.queue == s.queue[1..]
    && s'.promises == s.promises[s.queue[0].promise := Resolved(Defaults(s.queue[0].url))]
  }

  /** Each state of `trace` is the previous one with its head resolved. */
  ghost predicate HeadsResolved(trace: seq<State>, replies: seq<Option<Response>>)
  {
    && |trace| == |replies| + 1
    && forall k :: 0 <= k < |replies| ==> HeadResolved(trace[k], trace[k + 1], replies[k])
  }

  /** A run of argument-less completions resolves one head per call. */
  lemma CompletionsResolveHeads(trace: seq<State>, replies: seq<Option<Response>>)
    requires DefaultCompletions(trace, replies)
    ensures HeadsResolved(trace, replies)
  {
    forall k | 0 <= k < |replies|
      ensures HeadResolved(trace[k], trace[k + 1], replies[k])
    {
      DefaultCompletionStep(trace[k], trace[k + 1], replies[k]);
    }
  }

  /** Resolving heads one after another resolves the oldest requests in
      order, keeps the rest queued in order and touches no other promise. */
  lemma {:induction false} HeadsResolvedInOrder(trace: seq<State>, replies: seq<Option<Response>>)
    requires HeadsResolved(trace, replies)
    requires DistinctPromises(trace[0].queue)
    ensures var (q, n, last) := (trace[0].queue, |replies|, trace[|replies|]);
            && n <= |q|
            && last.queue == q[n..]
            && (forall k :: 0 <= k < n ==>
                  && replies[k] == Some(Defaults(q[k].url))
                  && q[k].promise in last.promises
                  && last.promises[q[k].promise] == Resolved(Defaults(q[k].url)))
            && (forall p :: p in trace[0].promises && (forall k :: 0 <= k < n ==> q[k].promise != p) ==>
                  p in last.promises && last.promises[p] == trace[0].promises[p])
    decreases |replies|
  {
    if |replies| > 0 {
      var q := trace[0].queue;
      assert HeadResolved(trace[0], trace[1], replies[0]);
      assert HeadsResolved(trace[1..], replies[1..]) by {
        forall k | 0 <= k < |replies| - 1
          ensures HeadResolved(trace[1..][k], trace[1..][k + 1], replies[1..][k])
        {
          assert HeadResolved(trace[k + 1], trace[k + 2], replies[k + 1]);
        }
      }
      assert forall k :: 0 <= k < |q| - 1 ==> trace[1].queue[k] == q[k + 1];
      HeadsResolvedInOrder(trace[1..], replies[1..]);
      assert q[1..][|replies| - 1..] == q[|replies|..];
    }
  }

  /** Argument-less `mockResponse()` calls resolve requests oldest first:
      the k-th call resolves the k-th oldest pending request with the
      default response for its url, the rest stay queued in order, and no
      other promise changes. */
  lemma DefaultCompletionIsFifo(trace: seq<State>, replies: seq<Option<Response>>)
    requires DefaultCompletions(trace, replies)
    requires DistinctPromises(trace[0].queue)
    ensures var (q, n, last) := (trace[0].queue, |replies|, trace[|replies|]);
            && n <= |q|
            && last.queue == q[n..]
            && (forall k :: 0 <= k < n ==>
                  && replies[k] == Some(Defaults(q[k].url))
                  && q[k].promise in last.promises
                  && last.promises[q[k].promise] == Resolved(Defaults(q[k].url)))
            && (forall p :: p in trace[0].promises && (forall k :: 0 <= k < n ==> q[k].promise != p) ==>
                  p in last.promises && last.promises[p] == trace[0].promises[p])
  {
    CompletionsResolveHeads(trace, replies);
    HeadsResolvedInOrder(trace, replies);
  }

  /** A completion that returns, followed by a run, is a run. */
  lemma DefaultCompletionsCons(s: State, reply: Option<Response>, trace: seq<State>, replies: seq<Option<Response>>)
    requires DefaultCompletions(trace, replies)
    requires MockResponse(s, map[], None, false) == Returned(trace[0], reply)
    ensures DefaultCompletions([s] + trace, [reply] + replies)
  {
    var trace', replies' := [s] + trace, [reply] + replies;
    forall k | 0 <= k < |replies'|
      ensures MockResponse(trace'[k], map[], None, false) == Returned(trace'[k + 1], replies'[k])
    {
      if k > 0 {
        assert trace'[k] == trace[k - 1] && trace'[k + 1] == trace[k] && replies'[k] == replies[k - 1];
      }
    }
  }

  /** With `n` requests pending, `n` argument-less `mockResponse()` calls in a
      row all return: a run of completions of that length exists, so
      `DefaultCompletionIsFifo` speaks about every such sequence of calls. */
  lemma {:induction false} DefaultCompletionsExist(s: State, n: nat)
    requires n <= |s.queue|
    ensures exists trace, replies :: DefaultCompletions(trace, replies) && |replies| == n && trace[0] == s
    decreases n
  {
    if n == 0 {
      assert DefaultCompletions([s], []);
    } else {
      HeadCompletion(s);
      var r := MockResponse(s, map[], None, false);
      DefaultCompletionsExist(r.state, n - 1);
      var trace, replies :| DefaultCompletions(trace, replies) && |replies| == n - 1 && trace[0] == r.state;
      DefaultCompletionsCons(s, r.value, trace, replies);
      assert ([s] + trace)[0] == s;
    }
  }

  /** Reachable states meet the premise of `DefaultCompletionIsFifo`. */
  lemma InvHasDistinctPromises(s: State)
    requires Inv(s)
    ensures DistinctPromises(s.queue)
  {
  }

  /** Three requests to the same url, then three argument-less
      `mockResponse()` calls: each call resolves the next request in
      request order and leaves the later ones pending. */
  lemma ThreeRequestsResolveInOrder(url: string)
    ensures var (s1, p1) := Fetch(Init(), url, Undefined, Undefined);
            var (s2, p2) := Fetch(s1, url, Undefined, Undefined);
            var (s3, p3) := Fetch(s2, url, Undefined, Undefined);
            var r1 := MockResponse(s3, map[], None, false);
            var r2 := MockResponse(r1.state, map[], None, false);
            var r3 := MockResponse(r2.state, map[], None, false);
            var done := Some(Resolved(Defaults(url)));
            && r1.Returned? && r2.Returned? && r3.Returned?
            && StatusOf(r1.state, p1) == done && StatusOf(r1.state, p2) == Some(Pending) && StatusOf(r1.state, p3) == Some(Pending)
            && StatusOf(r2.state, p1) == done && StatusOf(r2.state, p2) == done && StatusOf(r2.state, p3) == Some(Pending)
            && StatusOf(r3.state, p1) == done && StatusOf(r3.state, p2) == done && StatusOf(r3.state, p3) == done
            && r3.state.queue == []
  {
    var (s1, p1) := Fetch(Init(), url, Undefined, Undefined);
    var (s2, p2) := Fetch(s1, url, Undefined, Undefined);
    var (s3, p3) := Fetch(s2, url, Undefined, Undefined);
    assert s3.queue[0].promise == p1 && s3.queue[1].promise == p2 && s3.queue[2].promise == p3;
    assert p1 == 0 && p2 == 1 && p3 == 2;
    var r1 := MockResponse(s3, map[], None, false);
    HeadCompletion(s3);
    var r2 := MockResponse(r1.state, map[], None, false);
    HeadCompletion(r1.state);
    var r3 := MockResponse(r2.state, map[], None, false);
    HeadCompletion(r2.state);
  }

  // ---------------------------------------------------------------------
  // The response built by mockResponse
  // ---------------------------------------------------------------------

  /** `mockResponse()` without overrides resolves the oldest request with
      the full default record: status 200, "OK", ok, and the request's url. */
  lemma DefaultResponse(s: State)
    requires |s.queue| > 0
    ensures var r := MockResponse(s, map[], None, false);
            && r.Returned? && r.value.Some?
            && r.value.value == Defaults(s.queue[0].url)
            && r.value.value["status"] == Num(200)
            && r.value.value["statusText"] == Str("OK")
            && r.value.value["ok"] == Bool(true)
            && r.value.value["url"] == Str(s.queue[0].url)
  {
    assert Selected(s.queue, None, 0);
    DefaultFields(s.queue[0].url);
  }

  /** Overriding one field changes that field only: `mockResponse({status: 404})`
      keeps every other default. */
  lemma StatusOverride(s: State)
    requires |s.queue| > 0
    ensures var r := MockResponse(s, map["status" := Num(404)], None, false);
            var d := Defaults(s.queue[0].url);
            && r.Returned? && r.value.Some?
            && r.value.value.Keys == d.Keys
            && r.value.value["status"] == Num(404)
            && (forall k :: k in d && k != "status" ==> r.value.value[k] == d[k])
            && r.value.value["statusText"] == Str("OK")
            && r.value.value["ok"] == Bool(true)
            && r.value.value["url"] == Str(s.queue[0].url)
  {
    var d := Defaults(s.queue[0].url);
    var o := map["status" := Num(404)];
    assert Selected(s.queue, None, 0);
    DefaultFields(s.queue[0].url);
    MergeOneField(d, "status", Num(404));
    assert MockResponse(s, o, None, false).value == Some(Merge(d, o));
  }

  // ---------------------------------------------------------------------
  // Url lookup and reset
  // ---------------------------------------------------------------------

  /** Two requests to the same url: `getReqByUrl` returns the newer one. */
  lemma UrlLookupPrefersNewest(s: State, url: string, d1: Value, c1: Value, d2: Value, c2: Value)
    ensures var (s1, p1) := Fetch(s, url, d1, c1);
            var (s2, p2) := Fetch(s1, url, d2, c2);
            GetReqByUrl(s2, url).Some? && GetReqByUrl(s2, url).value.promise == p2 && p1 != p2
  {
  }

  /** `reset()` empties the queue, whatever it held, and a second `reset()`
      changes nothing. */
  lemma ResetIdempotent(s: State)
    ensures Reset(Reset(s)) == Reset(s)
    ensures LastReqGet(Reset(s)) == None
    ensures forall url :: GetReqByUrl(Reset(s), url) == None
  {
  }
}

=== FILE: queue.dfy ===
/**
 * The pending-request queue of lib/mock-fetch.ts: the records the mocked
 * `fetch` pushes, the selector that names one of them, the removal primitive
 * `popQueueItem` and the newest-first lookup by url.
 */
module Queue {
  import opened Wrappers
  import opened Values

  /** Object identity of a queue record. */
  type ItemId = nat

  /** Object identity of a request's promise. */
  type PromiseId = nat

  /** One pending request, `{config, data, promise, url}`. */
  datatype Item = Item(id: ItemId, url: string, data: Value, config: Value, promise: PromiseId)

  /** A selector value: a reference to a record or a reference to a promise. */
  datatype Ref = ItemRef(item: ItemId) | PromiseRef(promise: PromiseId)

  /** The comparison of `indexOf`: the selector is this very record. */
  predicate IsRecord(ref: Ref, it: Item)
  {
    ref == ItemRef(it.id)
  }

  /** The comparison of the `findIndex` fallback: the selector is this record's promise. */
  predicate HoldsPromise(ref: Ref, it: Item)
  {
    ref == PromiseRef(it.promise)
  }

  /** `Array.prototype.findIndex`, with `None` for -1. */
  function FindIndex(q: seq<Item>, p: Item -> bool): (r: Option<nat>)
    ensures r.Some? ==> r.value < |q| && p(q[r.value])
    ensures r.Some? ==> forall j :: 0 <= j < r.value ==> !p(q[j])
    ensures r.None? ==> forall j :: 0 <= j < |q| ==> !p(q[j])
  {
    if |q| == 0 then None
    else if p(q[0]) then Some(0)
    else
      match FindIndex(q[1..], p)
      case None =>
        assert forall j :: 1 <= j < |q| ==> q[j] == q[1..][j - 1];
        None
      case Some(k) =>
        assert forall j :: 1 <= j <= k ==> q[j] == q[1..][j - 1];
        Some(k + 1)
  }

  /** `splice(i, 1)` on the queue: drop position `i`, keep everything else in order. */
  function RemoveAt(q: seq<Item>, i: nat): (r: seq<Item>)
    requires i < |q|
    ensures |r| == |q| - 1
    ensures forall j :: 0 <= j < i ==> r[j] == q[j]
    ensures forall j :: i <= j < |r| ==> r[j] == q[j + 1]
  {
    q[..i] + q[i + 1..]
  }

  /** Position `i` is the record `popQueueItem(sel)` takes from `q`: the head
      when there is no selector; otherwise the first record that IS the
      selector, or, when no record is, the first record whose promise is. */
  ghost predicate Selected(q: seq<Item>, sel: Option<Ref>, i: int)
  {
    && 0 <= i < |q|
    && match sel
       case None => i == 0
       case Some(ref) =>
         if exists j :: 0 <= j < |q| && IsRecord(ref, q[j]) then
           IsRecord(ref, q[i]) && forall j :: 0 <= j < i ==> !IsRecord(ref, q[j])
         else
           HoldsPromise(ref, q[i]) && forall j :: 0 <= j < i ==> !HoldsPromise(ref, q[j])
  }

  /** At most one position is selected. */
  lemma SelectedUnique(q: seq<Item>, sel: Option<Ref>, i: int, k: int)
    requires Selected(q, sel, i) && Selected(q, sel, k)
    ensures i == k
  {
  }

  /** The queue after a removal, and the record removed (`undefined` as `None`). */
  datatype Popped = Popped(rest: seq<Item>, item: Option<Item>)

  /** `popQueueItem`: take the selected record out of the queue. */
  function Pop(q: seq<Item>, sel: Option<Ref>): (r: Popped)
    ensures r.item.Some? <==> exists i :: Selected(q, sel, i)
    ensures forall i :: Selected(q, sel, i) ==> r.item == Some(q[i]) && r.rest == RemoveAt(q, i)
    ensures r.item.None? ==> r.rest == q
  {
    match sel
    case None =>
      if |q| == 0 then Popped(q, None)
      else
        assert Selected(q, sel, 0);
        assert q[1..] == RemoveAt(q, 0);
        Popped(q[1..], Some(q[0]))
    case Some(ref) =>
      var byRecord := FindIndex(q, (it: Item) => IsRecord(ref, it));
      var ix := if byRecord.Some? then byRecord else FindIndex(q, (it: Item) => HoldsPromise(ref, it));
      match ix
      case None =>
        assert forall i :: !Selected(q, sel, i);
        Popped(q, None)
      case Some(i) =>
        assert Selected(q, sel, i);
        assert forall k :: Selected(q, sel, k) ==> k == i by {
          forall k | Selected(q, sel, k) {
            SelectedUnique(q, sel, i, k);
          }
        }
        Popped(RemoveAt(q, i), Some(q[i]))
  }

  /** Removing a position loses exactly that record and nothing else. */
  lemma RemoveAtMultiset(q: seq<Item>, i: nat)
    requires i < |q|
    ensures multiset(RemoveAt(q, i)) + multiset{q[i]} == multiset(q)
  {
    assert q == q[..i] + [q[i]] + q[i + 1..];
  }

  /** `slice().reverse()`. */
  function Reverse(q: seq<Item>): (r: seq<Item>)
    ensures |r| == |q|
    ensures forall i :: 0 <= i < |q| ==> r[i] == q[|q| - 1 - i]
  {
    if |q| == 0 then [] else Reverse(q[1..]) + [q[0]]
  }

  /** `getReqByUrl`: `find` over the reversed queue, so the newest record
      whose url is exactly `url`, or `None` when there is none. */
  function ReqByUrl(q: seq<Item>, url: string): (r: Option<Item>)
    ensures r.None? <==> forall i :: 0 <= i < |q| ==> q[i].url != url
    ensures r.Some? ==> exists i :: 0 <= i < |q| && q[i] == r.value && r.value.url == url
                                    && forall j :: i < j < |q| ==> q[j].url != url
  {
    var rev := Reverse(q);
    match FindIndex(rev, (it: Item) => it.url == url)
    case None =>
      assert forall i :: 0 <= i < |q| ==> q[i] == rev[|q| - 1 - i];
      None
    case Some(k) =>
      var i := |q| - 1 - k;
      assert q[i] == rev[k];
      assert forall j :: i < j < |q| ==> q[j] == rev[|q| - 1 - j];
      Some(rev[k])
  }
}

=== FILE: values.dfy ===
/**
 * JavaScript values as far as the mock needs to tell them apart, the default
 * response record, and the object-spread merge that lets a caller's fields
 * override the defaults (lib/mock-fetch.ts:109-130).
 */
module Values {

  /** Host or test-library objects that appear among the response defaults.
      Only their identity as a default is kept. */
  datatype HostObject =
    | PassThroughStream   // `new PassThrough()`
    | EmptyHeaders        // `new Headers()`
    | EmptyArrayBuffer    // `new ArrayBuffer(0)`
    | EmptyBlob           // `new Blob()`
    | EmptyFormData       // `new FormData()`
    | JestSpy             // `jest.fn()`

  /** A JavaScript value stored, passed or merged by the mock. */
  datatype Value =
    | Undefined
    | Num(n: int)
    | Str(s: string)
    | Bool(b: bool)
    | EmptyObject                  // `{}`
    | Host(obj: HostObject)
    | Thunk(result: Value)         // `() => v`
    | Opaque(tag: nat)             // any other caller object, never inspected

  /** A response object: its own enumerable properties, by name. */
  type Response = map<string, Value>

  /** The default response built for a request to `url`. */
  function Defaults(url: string): (r: Response)
  {
    map[
      "body" := Host(PassThroughStream),
      "headers" := Host(EmptyHeaders),
      "status" := Num(200),
      "statusText" := Str("OK"),
      "ok" := Bool(true),
      "url" := Str(url),
      "arrayBuffer" := Thunk(Host(EmptyArrayBuffer)),
      "blob" := Thunk(Host(EmptyBlob)),
      "clone" := Host(JestSpy),
      "error" := Host(JestSpy),
      "formData" := Thunk(Host(EmptyFormData)),
      "json" := Thunk(EmptyObject),
      "redirect" := Host(JestSpy),
      "text" := Thunk(Str("dummy text"))
    ]
  }

  /** The defaults a plain `mockResponse()` resolves with: status 200, status
      text "OK", the success flag set, and the request's own url. */
  lemma DefaultFields(url: string)
    ensures "status" in Defaults(url) && Defaults(url)["status"] == Num(200)
    ensures "statusText" in Defaults(url) && Defaults(url)["statusText"] == Str("OK")
    ensures "ok" in Defaults(url) && Defaults(url)["ok"] == Bool(true)
    ensures "url" in Defaults(url) && Defaults(url)["url"] == Str(url)
  {
  }

  /** `{...defaults, ...overrides}`: every property of `overrides` wins, every
      other property of `defaults` is kept, nothing else appears. */
  function Merge(defaults: Response, overrides: Response): (r: Response)
    ensures r.Keys == defaults.Keys + overrides.Keys
    ensures forall k :: k in overrides ==> r[k] == overrides[k]
    ensures forall k :: k in defaults && k !in overrides ==> r[k] == defaults[k]
  {
    defaults + overrides
  }

  /** Merging no overrides yields the defaults themselves. */
  lemma MergeNothing(defaults: Response)
    ensures Merge(defaults, map[]) == defaults
  {
  }

  /** Overriding one existing field replaces that field and keeps every other one. */
  lemma MergeOneField(defaults: Response, k: string, v: Value)
    requires k in defaults
    ensures var r := Merge(defaults, map[k := v]);
            && r.Keys == defaults.Keys
            && r[k] == v
            && forall k' :: k' in defaults && k' != k ==> r[k'] == defaults[k']
  {
  }
}

=== FILE: wrappers.dfy ===
/** The optional-value datatype used for JavaScript's `undefined` results. */
module Wrappers {

  /** `None` plays the role of `undefined`; `Some(v)` of a present value. */
  datatype Option<+T> = None | Some(value: T)
}
